=== FILE: README.md ===
# WinPR stream buffer model

This project is a Dafny model of WinPR's `wStream`. A `wStream` is a
cursor over a byte region with four parts:

- a capacity: the size of the region;
- a sealed length: how many bytes count as content;
- a position: where the next read or write happens;
- an `isOwner` flag: whether the stream must free the region.

The model covers the stream contract that the WinPR test suite asserts
(`winpr/libwinpr/utils/test/TestStream.c`):

- creation over a caller buffer or a fresh allocation;
- static initialisation;
- capacity growth;
- cursor control (set, seek, rewind, seal);
- the typed little- and big-endian accessors for UINT8 ... INT64;
- bulk write, fill, zero and copy.

The model has four modules.

- `Endian`: little- and big-endian encodings of unsigned integers, their
  round trips, and the byte-order law. The law says byte `i` of a
  little-endian field, and byte `w-1-i` of a big-endian field, hold
  `(v >> 8i) & 0xFF`.
- `IntTypes`: the eight C integer types. A signed value is stored as its
  two's-complement bit pattern. This module also models the union
  that test uses to view one 64-bit value as every type.
- `Streams`: the stream record and every operation, as pure functions
  from the stream before the call to the stream after it. The C pointer
  `s->pointer` is the offset `position` into `data`.
- `StreamTests`: each test's call sequence replayed on the model.
  - Each method's postcondition states what that test checks.
  - The predicate `Verify` models `TestStream_Verify`.

Calls that the C code guards with a debug assertion are excluded by
`requires`:

- reading past the sealed length;
- writing, seeking, zeroing, filling or copying past the capacity;
- rewinding before the start.

The stream implementation (`stream.c`, `stream.h`) is not part of this
model. Its behaviour is taken from what the test asserts. Where the test
leaves the behaviour open, the model makes its own decision and lists it
under "Left out" below.

## Model

| member | source | states |
|---|---|---|
| Endian.EncodeLE | winpr/libwinpr/utils/test/TestStream.c:283-291 | The little-endian layout of a value has exactly `w` bytes. |
| Endian.DecodeLE | winpr/libwinpr/utils/test/TestStream.c:283-291 | A little-endian field of `n` bytes holds a value below 2^(8n). |
| Endian.Reverse | winpr/libwinpr/utils/test/TestStream.c:309-317 | Byte `i` of the reversed field is byte `n-1-i` of the original. |
| Endian.EncodeBE | winpr/libwinpr/utils/test/TestStream.c:309-317 | The big-endian layout of a value has exactly `w` bytes. |
| Endian.DecodeBE | winpr/libwinpr/utils/test/TestStream.c:309-317 | A big-endian field of `n` bytes holds a value below 2^(8n). |
| Endian.ReverseReverse | winpr/libwinpr/utils/test/TestStream.c:309-317 | Reversing twice restores the field. |
| Endian.DecodeEncodeLE | winpr/libwinpr/utils/test/TestStream.c:365-372 | Decoding the little-endian layout of any value below 2^(8w) gives the value back. |
| Endian.EncodeDecodeLE | winpr/libwinpr/utils/test/TestStream.c:283-291 | Every little-endian byte pattern is the layout of the value it decodes to. |
| Endian.DecodeEncodeBE | winpr/libwinpr/utils/test/TestStream.c:373-380 | Decoding the big-endian layout of any value below 2^(8w) gives the value back. |
| Endian.EncodeDecodeBE | winpr/libwinpr/utils/test/TestStream.c:309-317 | Every big-endian byte pattern is the layout of the value it decodes to. |
| Endian.ByteLawLE | winpr/libwinpr/utils/test/TestStream.c:283-291 | Byte `i` of the little-endian layout of `u` is `(u / 256^i) % 256`, i.e. `(u >> 8i) & 0xFF`. |
| Endian.ByteLawBE | winpr/libwinpr/utils/test/TestStream.c:309-317 | Byte `w-1-i` of the big-endian layout of `u` is `(u >> 8i) & 0xFF`. |
| IntTypes.ToBits | winpr/libwinpr/utils/test/TestStream.c:323-334 | The bit pattern of a value is below 2^(8w) and congruent to the value modulo 2^(8w). For unsigned types it is the value itself. |
| IntTypes.FromBits | winpr/libwinpr/utils/test/TestStream.c:323-334 | Every bit pattern below 2^(8w) is the pattern of exactly one value in the type's range. |
| IntTypes.FromToBits | winpr/libwinpr/utils/test/TestStream.c:397-452 | Taking the bit pattern of a signed or unsigned value and reading it back gives the value. |
| IntTypes.Encode | winpr/libwinpr/utils/test/TestStream.c:342-452 | A typed write stores exactly sizeof(T) bytes. |
| IntTypes.Decode | winpr/libwinpr/utils/test/TestStream.c:342-452 | A typed read always yields a value in the range of T. |
| IntTypes.DecodeEncode | winpr/libwinpr/utils/test/TestStream.c:342-452 | For every type and byte order, decoding the encoding of a value gives the value back. |
| IntTypes.EncodeDecode | winpr/libwinpr/utils/test/TestStream.c:261-319 | For every type and byte order, every sizeof(T)-byte pattern is the encoding of the value it decodes to. |
| IntTypes.EncodeInjective | winpr/libwinpr/utils/test/TestStream.c:342-452 | Different values of one type never share an encoding. |
| IntTypes.ShiftedByteOfBits | winpr/libwinpr/utils/test/TestStream.c:285 | Shifting the two's-complement pattern yields the same low byte as an arithmetic shift of the signed value, for every byte index. |
| IntTypes.ByteLaw | winpr/libwinpr/utils/test/TestStream.c:283-317 | For every type and byte index `i`, the encoding holds `(v >> 8i) & 0xFF` in two places. Little-endian puts it at byte `i`. Big-endian puts it at byte `w-1-i`. |
| IntTypes.SingleByteOrderFree | winpr/libwinpr/utils/test/TestStream.c:252-259 | For UINT8 and INT8 the big-endian encoding and decoding equal the little-endian ones, so the `_BE` aliases are sound. |
| IntTypes.Reinterpret | winpr/libwinpr/utils/test/TestStream.c:323-334 | The union member of type T is in T's range and congruent to the 64-bit value modulo 2^(8·sizeof(T)). |
| IntTypes.ReinterpretSharesLowBytes | winpr/libwinpr/utils/test/TestStream.c:323-334 | On a little-endian host, the layout of member T is the first sizeof(T) bytes of the 64-bit value's layout. |
| IntTypes.ReinterpretByte | winpr/libwinpr/utils/test/TestStream.c:323-334 | Byte `i` of union member T, laid out little-endian, is byte `i` of the 64-bit value, for every `i` below sizeof(T). |
| Streams.New | winpr/libwinpr/utils/test/TestStream.c:79-89 | No stream is created exactly when there is neither a buffer nor a size. A created stream is full with its cursor at 0. Over a caller buffer, its bytes equal the buffer's first `size` bytes. The owner flag is the model's choice: set for a fresh region, clear for a caller buffer. |
| Streams.StaticInit | winpr/libwinpr/utils/test/TestStream.c:93-98 | A static stream covers the caller's region, is full, starts at 0 and does not own the region. |
| Streams.NewBorrowedIsStatic | winpr/libwinpr/utils/test/TestStream.c:98 | A heap stream over a caller buffer and a static stream over it are the same stream. |
| Streams.EnsureCapacity | winpr/libwinpr/utils/test/TestStream.c:207-250 | When it returns, capacity is at least the request. Content, cursor and length are preserved. A stream that is already large enough is unchanged. After growth the stream owns its region, holds less than twice the request, and the tail is zero. |
| Streams.EnsureRemainingCapacity | winpr/libwinpr/utils/test/TestStream.c:109-114 | Afterwards `n` bytes can be written at the cursor. This is EnsureCapacity for position + n. |
| Streams.PeekAfterGrowth | winpr/libwinpr/utils/test/TestStream.c:112-126 | Growth never changes a value readable before it, in either byte order. |
| Streams.SetPosition | winpr/libwinpr/utils/test/TestStream.c:169-172 | Moves the cursor to `p` and changes nothing else. |
| Streams.Seek | winpr/libwinpr/utils/test/TestStream.c:589-592 | Advances the cursor by `n` and changes nothing else. |
| Streams.Rewind | winpr/libwinpr/utils/test/TestStream.c:636-639 | Moves the cursor back by `n` and changes nothing else. |
| Streams.SeekType | winpr/libwinpr/utils/test/TestStream.c:594-612 | Advances the cursor by sizeof(T) and changes nothing else. |
| Streams.RewindType | winpr/libwinpr/utils/test/TestStream.c:641-659 | Moves the cursor back by sizeof(T) and changes nothing else. |
| Streams.SeekThenRewind | winpr/libwinpr/utils/test/TestStream.c:631-639 | Rewinding by the amount just sought restores the stream. |
| Streams.SealLength | winpr/libwinpr/utils/test/TestStream.c:171-177 | The length becomes the position. Bytes, capacity, cursor and ownership are kept. |
| Streams.GetRemainingLength | winpr/libwinpr/utils/test/TestStream.c:69-74 | Position plus remaining length is the length. |
| Streams.SealAtPosition | winpr/libwinpr/utils/test/TestStream.c:231-234 | Setting and sealing at `p` makes `p` both the length and the position. Nothing is left to read, and the region is kept. |
| Streams.Peek | winpr/libwinpr/utils/test/TestStream.c:268 | The peeked value is in T's range and its encoding is exactly the sizeof(T) bytes at the cursor. |
| Streams.PeekEncoded | winpr/libwinpr/utils/test/TestStream.c:523-526 | Bytes at the cursor that encode `v` are peeked as `v`. |
| Streams.Read | winpr/libwinpr/utils/test/TestStream.c:269 | A read yields the peeked value and advances the cursor by sizeof(T), changing nothing else. |
| Streams.Write | winpr/libwinpr/utils/test/TestStream.c:513-516 | A write stores the encoding of `v` at the cursor and advances by sizeof(T). Every other byte, the length, the capacity and ownership are kept. |
| Streams.PeekAndRead | winpr/libwinpr/utils/test/TestStream.c:267-282 | Peek and read agree. The read advances by sizeof(T), and rewinding by sizeof(T) restores the stream. |
| Streams.PeekByteLaw | winpr/libwinpr/utils/test/TestStream.c:283-317 | The bytes under the cursor hold `(v >> 8i) & 0xFF` for the peeked value `v`. Little-endian puts it at `i`. Big-endian puts it at `w-1-i`. |
| Streams.WriteRewindRead | winpr/libwinpr/utils/test/TestStream.c:342-348 | Write, rewind by sizeof(T), read: the value written comes back and the cursor ends where the write left it. |
| Streams.WriteLayout | winpr/libwinpr/utils/test/TestStream.c:283-317 | A typed write lays out `v` by the byte-order law. |
| Streams.WriteBytes | winpr/libwinpr/utils/test/TestStream.c:500-506 | The bytes land at the cursor and the cursor advances past them. Every other byte and the length are kept. |
| Streams.ReadBytes | winpr/libwinpr/utils/test/TestStream.c:500-506 | Yields the `n` bytes at the cursor and advances past them, changing nothing else. |
| Streams.WriteBytesThenReadBytes | winpr/libwinpr/utils/test/TestStream.c:500-506 | Bytes written, rewound over and read back are the bytes written. |
| Streams.Fill | winpr/libwinpr/utils/test/TestStream.c:734-740 | `n` copies of the byte land at the cursor, which advances by `n`. Every other byte is kept. |
| Streams.Zero | winpr/libwinpr/utils/test/TestStream.c:686-692 | `n` zero bytes land at the cursor, which advances by `n`. Every other byte is kept. |
| Streams.FillIsWriteBytes | winpr/libwinpr/utils/test/TestStream.c:734-748 | Fill is a bulk write of a constant run, and Zero is Fill with 0. |
| Streams.Copy | winpr/libwinpr/utils/test/TestStream.c:782-797 | The destination receives the `n` source bytes at its cursor. Both cursors advance by `n`. The source is otherwise untouched, and so is every other destination byte. |
| Streams.CopyIsSeekAndWrite | winpr/libwinpr/utils/test/TestStream.c:782-791 | Copy is a seek of the source plus a bulk write into the destination. |
| StreamTests.Create | winpr/libwinpr/utils/test/TestStream.c:138-178 | TestStream_Verify holds right after creation, after every set-and-seal round for each position below `size`, and for the stream the loop ends with. Over a caller buffer, the stream's bytes equal the buffer. |
| StreamTests.Extent | winpr/libwinpr/utils/test/TestStream.c:207-250 | Growing alternately by remaining and total capacity, then sealing at `i`, verifies with capacity, length and position `i` in the final round. |
| StreamTests.Static | winpr/libwinpr/utils/test/TestStream.c:91-136 | 0xcab1 reads back. Asking for 10 more bytes keeps the borrowed region, and asking for 30 makes the stream its owner. The values 1 and 2 written around the growth read back in order. |
| StreamTests.WriteAndRead | winpr/libwinpr/utils/test/TestStream.c:321-458 | For every 64-bit value, each of the 14 write/rewind/get steps returns that step's union member. |
| StreamTests.PeekAndReadCheck | winpr/libwinpr/utils/test/TestStream.c:261-319 | The TestStream_PeekAndRead macro never reports a failure on a readable stream, for either byte order. |
| StreamTests.CheckBytes | winpr/libwinpr/utils/test/TestStream.c:283-291 | The macro's byte loop never fails. Byte `i` of the buffer (little-endian), or byte `w-1-i` (big-endian), holds `(a >> 8i) & 0xFF` for the value `a` peeked at position 0. |
| StreamTests.Reading | winpr/libwinpr/utils/test/TestStream.c:460-482 | A stream over the caller's bytes 01 ... 08 passes the macro for all eight types. |
| StreamTests.WriteScenario | winpr/libwinpr/utils/test/TestStream.c:484-576 | The fresh stream starts at 0. The test string lands at the start and the cursor moves to 19. Each typed write from 0 advances by 1, 2, 4 and 8. Each rewind puts the cursor back at 0, and each value is peeked back unchanged. |
| StreamTests.WriteString | winpr/libwinpr/utils/test/TestStream.c:492-511 | A fresh 100-byte stream starts at 0. It holds the 19-byte test string at its start with the cursor at 19, and after rewinding the cursor is back at 0. |
| StreamTests.WriteTest | winpr/libwinpr/utils/test/TestStream.c:484-576 | With the intended verdict, TestStream_Write succeeds. The start check, the string check and all 14 later checks pass, in the test's order: the cursor at 19, then for each width the cursor back at 0, the cursor after the write, and the peeked value. |
| StreamTests.RunToExitIgnoresChecks | winpr/libwinpr/utils/test/TestStream.c:502-573 | As written, the checks after the memcmp never change the verdict: every jump to the exit returns the value set at line 503. |
| StreamTests.WriteVerdictAsWrittenMissesFailure | winpr/libwinpr/utils/test/TestStream.c:502-516 | Take a stream that passes the checks at lines 505 and 510 but has its cursor wrong after the first typed write (line 515). The verdict as written is still success; the intended verdict is failure. |
| StreamTests.AllPass | winpr/libwinpr/utils/test/TestStream.c:505-571 | Walking the checks in order succeeds exactly when every check passes. |
| StreamTests.WriteVerdict | winpr/libwinpr/utils/test/TestStream.c:484-576 | The intended verdict is success exactly when the start, the string and every later check pass. |
| StreamTests.WriteRewindGetRewind | winpr/libwinpr/utils/test/TestStream.c:341-348 | One write/rewind/get/rewind block returns the value written and leaves the cursor at 0. |
| StreamTests.WriteFromStart | winpr/libwinpr/utils/test/TestStream.c:513-526 | A typed write at 0 advances by sizeof(T). The rewind puts the cursor back at 0, and the peek then returns the value. |
| StreamTests.NewScenario | winpr/libwinpr/utils/test/TestStream.c:79-89 | Asking for a stream with neither a buffer nor a size creates none. |
| StreamTests.SeekScenario | winpr/libwinpr/utils/test/TestStream.c:578-618 | The fresh stream starts at 0, and the cursor sits at 5, 6, 8, 12 and 20 after the five seeks. |
| StreamTests.RewindScenario | winpr/libwinpr/utils/test/TestStream.c:620-665 | The fresh stream starts at 0 and Seek(100) reaches 100. The cursor then sits at 90, 89, 87, 83 and 75 after the five rewinds. |
| StreamTests.StringStream | winpr/libwinpr/utils/test/TestStream.c:760-780 | A fresh 19-byte stream starts at 0. The test string fills it and moves the cursor to 19, and SetPosition(0) brings the cursor back to 0. |
| StreamTests.ZeroScenario | winpr/libwinpr/utils/test/TestStream.c:667-712 | The test string lands at the start, and each SetPosition(0) puts the cursor at 0. Zeroing 5 bytes advances to 5 and keeps the rest of the string. The five UINT8 reads yield 0. |
| StreamTests.ReadZeros | winpr/libwinpr/utils/test/TestStream.c:699-706 | Five UINT8 reads from the start of a region whose first five bytes are zero each yield 0. |
| StreamTests.FillScenario | winpr/libwinpr/utils/test/TestStream.c:714-754 | The test string lands at the start, and each SetPosition(0) puts the cursor at 0. Filling 7 'X' bytes advances to 7 and keeps the rest of the string. The first 7 bytes are 'X'. |
| StreamTests.CopyScenario | winpr/libwinpr/utils/test/TestStream.c:756-804 | The source starts at 0, takes the test string, moves to 19 and goes back to 0. After the copy both cursors are at 19, and both regions start with the test string. |
| StreamTests.CopyString | winpr/libwinpr/utils/test/TestStream.c:782-798 | Copying 19 bytes from a source holding the test string at 0 to a fresh stream puts both cursors at 19, and both regions start with the string. |

## Findings

| source | as written | input that shows it | evidently intended | confidence | as-written member | corrected member |
|---|---|---|---|---|---|---|
| winpr/libwinpr/utils/test/TestStream.c:502-573 | `rc = TRUE` is set as soon as the written string matches. Every later `goto out` returns that value, so no position or peek check can fail the test. | A stream whose cursor is not at 1 after `Stream_Write_UINT8` (line 515): the test still returns TRUE. | Set `rc = TRUE` only after the last check, as TestStream_Seek does at line 614. | not executed; read from the code | StreamTests.WriteVerdictAsWrittenMissesFailure | StreamTests.WriteVerdict |

## Left out

- `stream.c` and `stream.h` are not part of this model. The operations follow the behaviour the test asserts. Where the test leaves it open, the model makes its own decisions, one per line below.
- Streams.New: aliasing of a caller buffer is modelled only as equal contents at creation. A copying constructor meets the same contract. The caller's `memset` of its buffer followed by the `memcmp` against `Stream_Buffer(s)` (TestStream.c:180-189) is not replayed, because the model has no shared regions.
- Streams.New: the owner flag is the model's decision: clear over a caller buffer, set for a fresh region. The test never reads it after `Stream_New`. Passing `buffer ? FALSE : TRUE` to `Stream_Free` (TestStream.c:191, 201) suggests the C code may instead set it in both cases and leave the caller buffer alone through that argument.
- Streams.EnsureCapacity: a region that grows becomes owned by the stream. The test checks this only for a static stream (TestStream.c:113).
- Streams.EnsureRemainingCapacity: the request is exactly position + `n`. The test checks only that the call succeeds and that `n` bytes then fit (TestStream.c:109-113, 220-234). Requesting capacity + `n` would meet those checks too, with a different capacity: 80 instead of 40 at line 113.
- Streams.EnsureCapacity: growth doubles the capacity, starting from 1 when the capacity is 0, until the request fits. The test only requires that the request fits.
- Streams.EnsureCapacity: growth keeps the sealed length. The test never reads the length between a growth and the next seal (TestStream.c:109-126, 222-234).
- Streams.EnsureCapacity: the bytes added by growth are zero.
- Streams.Peek: `Stream_Peek_<T>` and `Stream_Peek_Get_<T>` are one function here, as are `Stream_Read_<T>` and `Stream_Get_<T>` (Streams.Read). The C macros differ only in whether they assign through an argument or return the value.
- `winpr/libwinpr/utils/debug.c` (backtraces and logging) is not modelled. It has no bearing on stream state.
- `Stream_Free` and allocation failure: the model has no heap. Every allocation succeeds, and releasing memory has no observable state.
- `malloc`'s uninitialised bytes are modelled as zero bytes. A fresh region's contents are never read before being written in the tests.
- Pointer identity (`s->pointer == s->buffer + k`) is modelled as the offset `position == k`. `Stream_Buffer(s) != NULL` and `pointer >= buffer` hold for every modelled stream.
- `size_t` overflow of `position + n` is not modelled: integers are unbounded.
- `winpr_RAND` in the test driver: `StreamTests.WriteAndRead` quantifies over every 64-bit value instead of ten random ones.
- `printf` diagnostics and the test driver's exit codes are not modelled.
- IntTypes.Reinterpret: models the union on a little-endian host only. On a big-endian host the narrower members would alias the high bytes.
- StreamTests.Extent: states the final round's check (capacity, length and position `maxSize - 1`). The loop invariant carries the same check for every earlier round, but the postcondition does not list them.

=== FILE: endian.dfy ===
/** Byte-order encodings of unsigned integers as fixed-width byte sequences.

    A value `u` of width `w` bytes is laid out little-endian by emitting its
    low byte first and continuing with `u / 256`; the big-endian layout is the
    same bytes in reverse.  The byte-order law relates these recursive
    definitions to the closed form `(u >> 8*i) & 0xFF`, which on
    mathematical integers is `(u / 256^i) % 256`.
 */
module Endian {

  /** An octet, as the C type BYTE. */
  newtype byte = x: int | 0 <= x < 256

  /** 256^n, i.e. 2^(8n). */
  function Pow256(n: nat): (p: nat)
    ensures p >= 1
    ensures n > 0 ==> p % 256 == 0
  {
    if n == 0 then 1 else 256 * Pow256(n - 1)
  }

  /** Pow256 turns addition of exponents into multiplication. */
  lemma {:induction false} Pow256Add(a: nat, b: nat)
    ensures Pow256(a + b) == Pow256(a) * Pow256(b)
  {
    if a > 0 {
      Pow256Add(a - 1, b);
      calc {
        Pow256(a + b);
        256 * Pow256(a - 1 + b);
        256 * (Pow256(a - 1) * Pow256(b));
        (256 * Pow256(a - 1)) * Pow256(b);
        Pow256(a) * Pow256(b);
      }
    }
  }

  // ---------------------------------------------------------------------
  // Euclidean division facts used by the byte-order law
  // ---------------------------------------------------------------------

  /** A positive multiple of a positive number is at least that number. */
  lemma MulAtLeast(d: int, k: int)
    requires d > 0 && k >= 1
    ensures d * k >= d
  {
  }

  lemma Distribute(d: int, x: int, y: int)
    ensures d * x - d * y == d * (x - y)
  {
  }

  /** Quotient and remainder are unique. */
  lemma DivUnique(u: int, d: int, q: int, r: int)
    requires d > 0
    requires u == d * q + r && 0 <= r < d
    ensures u / d == q && u % d == r
  {
    var q0 := u / d;
    var r0 := u % d;
    assert u == d * q0 + r0;
    if q0 < q {
      Distribute(d, q, q0);
      MulAtLeast(d, q - q0);
    } else if q < q0 {
      Distribute(d, q0, q);
      MulAtLeast(d, q0 - q);
    }
  }

  lemma MulMonotone(a: int, x: int, y: int)
    requires a >= 0 && x <= y
    ensures a * x <= a * y
  {
  }

  lemma MulRegroup(a: int, b: int, q: int, r: int)
    ensures a * (b * q + r) == (a * b) * q + a * r
  {
  }

  /** Dividing twice is dividing by the product: (u >> a) >> b == u >> (a + b). */
  lemma DivDiv(u: int, a: int, b: int)
    requires a > 0 && b > 0
    ensures u / a / b == u / (a * b)
  {
    var q := u / a;
    var r := u % a;
    var q2 := q / b;
    var r2 := q % b;
    assert u == a * q + r;
    assert q == b * q2 + r2;
    MulRegroup(a, b, q2, r2);
    assert u == (a * b) * q2 + (a * r2 + r);
    MulMonotone(a, r2, b - 1);
    MulRegroup(a, b, 1, -1);
    assert a * (b - 1) == a * b - a;
    MulMonotone(a, 0, r2);
    DivUnique(u, a * b, q2, a * r2 + r);
  }

  /** Adding a multiple of the divisor shifts the quotient and keeps the remainder. */
  lemma DivAddMultiple(x: int, d: int, k: int)
    requires d > 0
    ensures (x + d * k) / d == x / d + k
    ensures (x + d * k) % d == x % d
  {
    assert x + d * k == d * (x / d + k) + x % d;
    DivUnique(x + d * k, d, x / d + k, x % d);
  }

  // ---------------------------------------------------------------------
  // Little- and big-endian layouts
  // ---------------------------------------------------------------------

  /** The `w` bytes of `u`, least significant first. */
  function EncodeLE(u: nat, w: nat): (bs: seq<byte>)
    ensures |bs| == w
  {
    if w == 0 then [] else [(u % 256) as byte] + EncodeLE(u / 256, w - 1)
  }

  /** The unsigned value of a little-endian byte sequence. */
  function DecodeLE(bs: seq<byte>): (u: nat)
    ensures u < Pow256(|bs|)
  {
    if |bs| == 0 then 0 else bs[0] as nat + 256 * DecodeLE(bs[1..])
  }

  /** The sequence read back to front. */
  function Reverse(bs: seq<byte>): (r: seq<byte>)
    ensures |r| == |bs|
    ensures forall i :: 0 <= i < |bs| ==> r[i] == bs[|bs| - 1 - i]
  {
    if |bs| == 0 then [] else Reverse(bs[1..]) + [bs[0]]
  }

  /** The `w` bytes of `u`, most significant first. */
  function EncodeBE(u: nat, w: nat): (bs: seq<byte>)
    ensures |bs| == w
  {
    Reverse(EncodeLE(u, w))
  }

  /** The unsigned value of a big-endian byte sequence. */
  function DecodeBE(bs: seq<byte>): (u: nat)
    ensures u < Pow256(|bs|)
  {
    DecodeLE(Reverse(bs))
  }

  lemma ReverseReverse(bs: seq<byte>)
    ensures Reverse(Reverse(bs)) == bs
  {
    var r := Reverse(Reverse(bs));
    assert forall i :: 0 <= i < |bs| ==> r[i] == bs[i];
  }

  /** Little-endian decoding inverts encoding for every value that fits. */
  lemma {:induction false} DecodeEncodeLE(u: nat, w: nat)
    requires u < Pow256(w)
    ensures DecodeLE(EncodeLE(u, w)) == u
  {
    if w > 0 {
      var bs := EncodeLE(u, w);
      assert bs[1..] == EncodeLE(u / 256, w - 1);
      assert u / 256 < Pow256(w - 1);
      DecodeEncodeLE(u / 256, w - 1);
    }
  }

  /** Little-endian encoding inverts decoding: every byte pattern is reproduced. */
  lemma {:induction false} EncodeDecodeLE(bs: seq<byte>)
    ensures EncodeLE(DecodeLE(bs), |bs|) == bs
  {
    if |bs| > 0 {
      var u := DecodeLE(bs);
      var rest := DecodeLE(bs[1..]);
      DivAddMultiple(bs[0] as int, 256, rest);
      assert u % 256 == bs[0] as int;
      assert u / 256 == rest;
      EncodeDecodeLE(bs[1..]);
      assert EncodeLE(u, |bs|) == [bs[0]] + bs[1..];
    }
  }

  /** Big-endian decoding inverts encoding for every value that fits. */
  lemma DecodeEncodeBE(u: nat, w: nat)
    requires u < Pow256(w)
    ensures DecodeBE(EncodeBE(u, w)) == u
  {
    ReverseReverse(EncodeLE(u, w));
    DecodeEncodeLE(u, w);
  }

  /** Big-endian encoding inverts decoding. */
  lemma EncodeDecodeBE(bs: seq<byte>)
    ensures EncodeBE(DecodeBE(bs), |bs|) == bs
  {
    EncodeDecodeLE(Reverse(bs));
    ReverseReverse(bs);
  }

  /** Byte-order law, little-endian: byte i holds (u >> 8i) & 0xFF. */
  lemma {:induction false} ByteLawLE(u: nat, w: nat, i: nat)
    requires i < w
    ensures EncodeLE(u, w)[i] as int == (u / Pow256(i)) % 256
  {
    if i > 0 {
      assert EncodeLE(u, w)[i] == EncodeLE(u / 256, w - 1)[i - 1];
      ByteLawLE(u / 256, w - 1, i - 1);
      DivDiv(u, 256, Pow256(i - 1));
    }
  }

  /** Byte-order law, big-endian: byte w-1-i holds (u >> 8i) & 0xFF. */
  lemma ByteLawBE(u: nat, w: nat, i: nat)
    requires i < w
    ensures EncodeBE(u, w)[w - 1 - i] as int == (u / Pow256(i)) % 256
  {
    ByteLawLE(u, w, i);
  }
}

=== FILE: inttypes.dfy ===
/** The eight fixed-width integer types the stream accessors read and write
    (UINT8 ... INT64), and their byte layouts in either byte order.

    A signed value is stored as the two's-complement bit pattern of its
    width, i.e. as the unique unsigned value below 2^(8w) congruent to it.
 */
module IntTypes {
  import opened Endian

  datatype ByteOrder = LittleEndian | BigEndian

  datatype IntType = UInt8 | UInt16 | UInt32 | UInt64 | Int8 | Int16 | Int32 | Int64 {

    /** sizeof(T) in bytes. */
    function Width(): nat
    {
      match this
      case UInt8 | Int8 => 1
      case UInt16 | Int16 => 2
      case UInt32 | Int32 => 4
      case UInt64 | Int64 => 8
    }

    predicate Signed()
    {
      Int8? || Int16? || Int32? || Int64?
    }

    /** 2^(8 * sizeof(T)): the number of distinct bit patterns. */
    function Modulus(): nat
    {
      Pow256(Width())
    }

    /** The values a variable of this C type can hold. */
    predicate InRange(v: int)
    {
      if Signed() then -(Modulus() / 2) <= v < Modulus() / 2 else 0 <= v < Modulus()
    }
  }

  /** A multiple of `m` leaves no remainder. */
  lemma MultipleMod(m: int, k: int)
    requires m > 0
    ensures (m * k) % m == 0
  {
    DivAddMultiple(0, m, k);
  }

  /** The bit pattern of `v` as an unsigned number: the unique value below
      2^(8w) that is congruent to `v` modulo 2^(8w). */
  function ToBits(t: IntType, v: int): (u: nat)
    requires t.InRange(v)
    ensures u < t.Modulus()
    ensures (u - v) % t.Modulus() == 0
    ensures !t.Signed() ==> u == v
  {
    MultipleMod(t.Modulus(), if v < 0 then 1 else 0);
    if v < 0 then v + t.Modulus() else v
  }

  /** The value of type `t` whose bit pattern is `u`. */
  function FromBits(t: IntType, u: nat): (v: int)
    requires u < t.Modulus()
    ensures t.InRange(v)
    ensures ToBits(t, v) == u
  {
    if t.Signed() && u >= t.Modulus() / 2 then u - t.Modulus() else u
  }

  /** Reading back a bit pattern reproduces the value it was taken from. */
  lemma FromToBits(t: IntType, v: int)
    requires t.InRange(v)
    ensures FromBits(t, ToBits(t, v)) == v
  {
  }

  /** The bytes a typed write stores for `v`. */
  function Encode(t: IntType, order: ByteOrder, v: int): (bs: seq<byte>)
    requires t.InRange(v)
    ensures |bs| == t.Width()
  {
    match order
    case LittleEndian => EncodeLE(ToBits(t, v), t.Width())
    case BigEndian => EncodeBE(ToBits(t, v), t.Width())
  }

  /** The value a typed read produces from `bs`. */
  function Decode(t: IntType, order: ByteOrder, bs: seq<byte>): (v: int)
    requires |bs| == t.Width()
    ensures t.InRange(v)
  {
    match order
    case LittleEndian => FromBits(t, DecodeLE(bs))
    case BigEndian => FromBits(t, DecodeBE(bs))
  }

  /** Round trip value -> bytes -> value, for every type and byte order. */
  lemma DecodeEncode(t: IntType, order: ByteOrder, v: int)
    requires t.InRange(v)
    ensures Decode(t, order, Encode(t, order, v)) == v
  {
    var u := ToBits(t, v);
    FromToBits(t, v);
    match order
    case LittleEndian => DecodeEncodeLE(u, t.Width());
    case BigEndian => DecodeEncodeBE(u, t.Width());
  }

  /** Round trip bytes -> value -> bytes: every byte pattern is a value. */
  lemma EncodeDecode(t: IntType, order: ByteOrder, bs: seq<byte>)
    requires |bs| == t.Width()
    ensures Encode(t, order, Decode(t, order, bs)) == bs
  {
    match order
    case LittleEndian => EncodeDecodeLE(bs);
    case BigEndian => EncodeDecodeBE(bs);
  }

  /** Different values of one type have different encodings. */
  lemma EncodeInjective(t: IntType, order: ByteOrder, v: int, v': int)
    requires t.InRange(v) && t.InRange(v')
    requires Encode(t, order, v) == Encode(t, order, v')
    ensures v == v'
  {
    DecodeEncode(t, order, v);
    DecodeEncode(t, order, v');
  }

  /** Shifting the two's-complement pattern of a value gives the same low
      byte as the arithmetic shift of the value itself. */
  lemma ShiftedByteOfBits(t: IntType, v: int, i: nat)
    requires t.InRange(v) && i < t.Width()
    ensures (ToBits(t, v) / Pow256(i)) % 256 == (v / Pow256(i)) % 256
  {
    if v < 0 {
      var w := t.Width();
      var k := Pow256(w - i - 1);
      Pow256Add(i, w - i);
      assert t.Modulus() == Pow256(i) * (256 * k);
      DivAddMultiple(v, Pow256(i), 256 * k);
      DivAddMultiple(v / Pow256(i), 256, k);
    }
  }

  /** Byte-order law: for a value `v` of width `w`, byte `i` of the
      little-endian layout and byte `w-1-i` of the big-endian layout both
      hold `(v >> 8i) & 0xFF` (an arithmetic shift for signed values). */
  lemma ByteLaw(t: IntType, v: int, i: nat)
    requires t.InRange(v) && i < t.Width()
    ensures Encode(t, LittleEndian, v)[i] as int == (v / Pow256(i)) % 256
    ensures Encode(t, BigEndian, v)[t.Width() - 1 - i] as int == (v / Pow256(i)) % 256
  {
    ByteLawLE(ToBits(t, v), t.Width(), i);
    ByteLawBE(ToBits(t, v), t.Width(), i);
    ShiftedByteOfBits(t, v, i);
  }

  /** For single-byte types the byte order is immaterial: the *_BE names of
      the 8-bit accessors are aliases of the plain ones. */
  lemma SingleByteOrderFree(t: IntType, v: int, bs: seq<byte>)
    requires t.Width() == 1 && t.InRange(v) && |bs| == 1
    ensures Encode(t, BigEndian, v) == Encode(t, LittleEndian, v)
    ensures Decode(t, BigEndian, bs) == Decode(t, LittleEndian, bs)
  {
    assert Reverse(bs) == bs;
    var le := Encode(t, LittleEndian, v);
    assert Reverse(le) == le;
  }

  /** The union of UINT8 ... INT64 over one 64-bit value: member `t` is the
      value of type `t` whose bit pattern is the low `sizeof(t)` bytes. */
  function Reinterpret(t: IntType, x: nat): (v: int)
    requires x < Pow256(8)
    ensures t.InRange(v)
    ensures (x - v) % t.Modulus() == 0
  {
    var m := t.Modulus();
    var u := x % m;
    var v := FromBits(t, u);
    CongruentThroughRemainder(x, m, u, v);
    v
  }

  /** Congruence modulo `m` passes through reduction modulo `m`. */
  lemma CongruentThroughRemainder(x: int, m: int, u: int, v: int)
    requires m > 0 && u == x % m && (u - v) % m == 0
    ensures (x - v) % m == 0
  {
    assert x - v == (u - v) + m * (x / m);
    DivAddMultiple(u - v, m, x / m);
  }

  /** Truncating to the low `w` bytes leaves bytes below `w` unchanged. */
  lemma TruncatedByte(x: nat, w: nat, i: nat)
    requires i < w
    ensures ((x % Pow256(w)) / Pow256(i)) % 256 == (x / Pow256(i)) % 256
  {
    var k := Pow256(w - i - 1);
    Pow256Add(i, w - i);
    assert Pow256(w - i) == 256 * k;
    TruncatedByteSplit(x, Pow256(i), k);
  }

  lemma TruncatedByteSplit(x: nat, p: nat, k: nat)
    requires p > 0 && k > 0
    ensures ((x % (p * (256 * k))) / p) % 256 == (x / p) % 256
  {
    var m := p * (256 * k);
    var q := x / m;
    var r := x % m;
    assert x == r + m * q;
    MulRegroup(p, 256 * k, q, 0);
    var c := (256 * k) * q;
    assert x == r + p * c;
    DivAddMultiple(r, p, c);
    MulRegroup(256, k, q, 0);
    assert c == 256 * (k * q);
    DivAddMultiple(r / p, 256, k * q);
  }

  /** The union members share storage: on a little-endian host, member `t`
      occupies exactly the first `sizeof(t)` bytes of the 64-bit value. */
  lemma ReinterpretSharesLowBytes(t: IntType, x: nat)
    requires x < Pow256(8)
    ensures Encode(t, LittleEndian, Reinterpret(t, x)) == EncodeLE(x, 8)[..t.Width()]
  {
    var lhs := Encode(t, LittleEndian, Reinterpret(t, x));
    var rhs := EncodeLE(x, 8)[..t.Width()];
    forall i | 0 <= i < t.Width()
      ensures lhs[i] == rhs[i]
    {
      ReinterpretByte(t, x, i);
    }
  }

  /** Byte `i` of a union member is byte `i` of the 64-bit value. */
  lemma ReinterpretByte(t: IntType, x: nat, i: nat)
    requires x < Pow256(8) && i < t.Width()
    ensures Encode(t, LittleEndian, Reinterpret(t, x))[i] == EncodeLE(x, 8)[i]
  {
    var w := t.Width();
    var m := t.Modulus();
    assert ToBits(t, Reinterpret(t, x)) == x % m;
    ByteLawLE(x % m, w, i);
    ByteLawLE(x, 8, i);
    TruncatedByte(x, w, i);
  }
}

=== FILE: stream.dfy ===
/** The wStream buffer cursor: a byte region of `capacity` bytes, a sealed
    `length`, a read/write `position` and an `isOwner` flag.

    Every operation is a pure function from the stream before the call to
    the stream after it.  The region's address is not modelled: the C
    pointer `s->pointer` is the offset `position` into `data`, and
    `Stream_Buffer(s)` is `data` itself.  Calls the C code guards with a
    debug assertion (reading past the sealed length, writing or seeking past
    the capacity, rewinding before the start) are excluded by `requires`.
 */
module Streams {
  import opened Endian
  import opened IntTypes

  datatype Option<T> = None | Some(value: T)

  datatype Stream = Stream(
    data: seq<byte>,
    capacity: nat,
    length: nat,
    position: nat,
    isOwner: bool)
  {
    /** The structural invariant every reachable stream keeps. */
    predicate Valid()
    {
      |data| == capacity && length <= capacity && position <= capacity
    }

    /** At least `n` sealed bytes lie at and after the cursor. */
    predicate CanRead(n: nat)
    {
      Valid() && position <= length && n <= length - position
    }

    /** At least `n` bytes of the region lie at and after the cursor. */
    predicate CanWrite(n: nat)
    {
      Valid() && n <= capacity - position
    }

    /** Every field other than the cursor is as in `s`. */
    predicate SameBut(s: Stream, position': nat)
    {
      this == s.(position := position')
    }
  }

  /** `n` zero bytes. */
  function Zeros(n: nat): (z: seq<byte>)
    ensures |z| == n
    ensures forall i :: 0 <= i < n ==> z[i] == 0
  {
    seq(n, _ => 0)
  }

  /** `data` with the bytes at `at .. at + |bs|` replaced by `bs`. */
  function Splice(data: seq<byte>, at: nat, bs: seq<byte>): (r: seq<byte>)
    requires at + |bs| <= |data|
    ensures |r| == |data|
    ensures r[at .. at + |bs|] == bs
    ensures forall i :: 0 <= i < |data| && !(at <= i < at + |bs|) ==> r[i] == data[i]
  {
    data[..at] + bs + data[at + |bs|..]
  }

  // -----------------------------------------------------------------------
  // Creation
  // -----------------------------------------------------------------------

  /** Stream_New: borrow the caller's region when one is given, otherwise
      allocate `size` bytes; a stream with neither region nor size is not
      created.  Fresh allocations are modelled as zero bytes. */
  function New(buffer: Option<seq<byte>>, size: nat): (r: Option<Stream>)
    requires buffer.Some? ==> size <= |buffer.value|
    ensures r.None? <==> buffer.None? && size == 0
    ensures r.Some? ==> r.value.Valid() && r.value.position == 0
    ensures r.Some? ==> r.value.capacity == size && r.value.length == size
    ensures r.Some? && buffer.Some? ==> r.value.data == buffer.value[..size] && !r.value.isOwner
    ensures r.Some? && buffer.None? ==> r.value.isOwner
  {
    match buffer
    case None => if size == 0 then None else Some(Stream(Zeros(size), size, size, 0, true))
    case Some(b) => Some(Stream(b[..size], size, size, 0, false))
  }

  /** Stream_StaticInit: bind a caller-owned stream record to a caller-owned
      region of `size` bytes, without allocating anything. */
  function StaticInit(buffer: seq<byte>, size: nat): (s: Stream)
    requires size <= |buffer|
    ensures s.Valid() && s.position == 0
    ensures s.capacity == size && s.length == size
    ensures s.data == buffer[..size]
    ensures !s.isOwner
  {
    Stream(buffer[..size], size, size, 0, false)
  }

  /** A stream over a caller buffer behaves the same whether the record is
      heap-allocated or static. */
  lemma NewBorrowedIsStatic(buffer: seq<byte>, size: nat)
    requires size <= |buffer|
    ensures New(Some(buffer), size) == Some(StaticInit(buffer, size))
  {
  }

  // -----------------------------------------------------------------------
  // Capacity growth
  // -----------------------------------------------------------------------

  /** The capacity reached by doubling `start` until it holds `size`. */
  function GrownCapacity(start: nat, size: nat): (c: nat)
    requires 0 < start < size
    ensures size <= c < 2 * size
    decreases size - start
  {
    if 2 * start >= size then 2 * start else GrownCapacity(2 * start, size)
  }

  /** Stream_EnsureCapacity: make room for `size` bytes.  A stream that is
      already large enough is untouched.  Otherwise the region grows
      geometrically; a borrowed region is copied into a new owned one, so
      the stream owns its storage afterwards.  Bytes, cursor and sealed
      length survive the growth; the new tail is zeroed. */
  function EnsureCapacity(s: Stream, size: nat): (r: Stream)
    requires s.Valid()
    ensures r.Valid()
    ensures r.capacity >= size && r.capacity >= s.capacity
    ensures r.data[..s.capacity] == s.data
    ensures r.position == s.position && r.length == s.length
    ensures s.capacity >= size ==> r == s
    ensures s.capacity < size ==> r.isOwner && r.capacity < 2 * size
    ensures forall i :: s.capacity <= i < r.capacity ==> r.data[i] == 0
  {
    if s.capacity >= size then s
    else
      var start := if s.capacity == 0 then 1 else s.capacity;
      var c := if start >= size then start else GrownCapacity(start, size);
      s.(data := s.data + Zeros(c - s.capacity), capacity := c, isOwner := true)
  }

  /** Stream_EnsureRemainingCapacity: make room for `n` bytes after the cursor. */
  function EnsureRemainingCapacity(s: Stream, n: nat): (r: Stream)
    requires s.Valid()
    ensures r.CanWrite(n)
    ensures r == EnsureCapacity(s, s.position + n)
  {
    EnsureCapacity(s, s.position + n)
  }

  /** Growth is invisible to readers: every typed value readable before is
      read the same afterwards. */
  lemma PeekAfterGrowth(s: Stream, size: nat, t: IntType, order: ByteOrder)
    requires s.CanRead(t.Width())
    ensures EnsureCapacity(s, size).CanRead(t.Width())
    ensures Peek(EnsureCapacity(s, size), t, order) == Peek(s, t, order)
  {
    var r := EnsureCapacity(s, size);
    var p := s.position;
    var w := t.Width();
    assert r.data[p .. p + w] == s.data[p .. p + w] by {
      assert r.data[..s.capacity][p .. p + w] == r.data[p .. p + w];
    }
    EncodeInjective(t, order, Peek(r, t, order), Peek(s, t, order));
  }

  // -----------------------------------------------------------------------
  // Cursor and length control
  // -----------------------------------------------------------------------

  /** Stream_SetPosition. */
  function SetPosition(s: Stream, p: nat): (r: Stream)
    requires s.Valid() && p <= s.capacity
    ensures r.Valid() && r.position == p && r.SameBut(s, p)
  {
    s.(position := p)
  }

  /** Stream_Seek: advance the cursor by `n`. */
  function Seek(s: Stream, n: nat): (r: Stream)
    requires s.CanWrite(n)
    ensures r.Valid() && r.position == s.position + n && r.SameBut(s, r.position)
  {
    s.(position := s.position + n)
  }

  /** Stream_Rewind: move the cursor back by `n`. */
  function Rewind(s: Stream, n: nat): (r: Stream)
    requires s.Valid() && n <= s.position
    ensures r.Valid() && r.position + n == s.position && r.SameBut(s, r.position)
  {
    s.(position := s.position - n)
  }

  /** Stream_Seek_UINT8 ... Stream_Seek_UINT64: skip one value of type `t`. */
  function SeekType(s: Stream, t: IntType): (r: Stream)
    requires s.CanWrite(t.Width())
    ensures r.Valid() && r.position == s.position + t.Width() && r.SameBut(s, r.position)
  {
    Seek(s, t.Width())
  }

  /** Stream_Rewind_UINT8 ... Stream_Rewind_UINT64: step back over one value
      of type `t`. */
  function RewindType(s: Stream, t: IntType): (r: Stream)
    requires s.Valid() && t.Width() <= s.position
    ensures r.Valid() && r.position + t.Width() == s.position && r.SameBut(s, r.position)
  {
    Rewind(s, t.Width())
  }

  /** Seeking forward and rewinding by the same amount returns to the start. */
  lemma SeekThenRewind(s: Stream, n: nat)
    requires s.CanWrite(n)
    ensures Rewind(Seek(s, n), n) == s
  {
  }

  /** Stream_SealLength: the bytes before the cursor become the content. */
  function SealLength(s: Stream): (r: Stream)
    requires s.Valid()
    ensures r.Valid() && r.length == s.position
    ensures r.data == s.data && r.capacity == s.capacity
    ensures r.position == s.position && r.isOwner == s.isOwner
  {
    s.(length := s.position)
  }

  /** Stream_GetRemainingLength: sealed bytes left to read. */
  function GetRemainingLength(s: Stream): (n: nat)
    requires s.Valid() && s.position <= s.length
    ensures s.position + n == s.length
  {
    s.length - s.position
  }

  /** Sealing at position `p` makes `p` both the length and the position,
      leaves nothing to read, and keeps the region. */
  lemma SealAtPosition(s: Stream, p: nat)
    requires s.Valid() && p <= s.capacity
    ensures SealLength(SetPosition(s, p)).length == p
    ensures SealLength(SetPosition(s, p)).position == p
    ensures GetRemainingLength(SealLength(SetPosition(s, p))) == 0
    ensures SealLength(SetPosition(s, p)).capacity == s.capacity
    ensures SealLength(SetPosition(s, p)).data == s.data
  {
  }

  // -----------------------------------------------------------------------
  // Typed accessors
  // -----------------------------------------------------------------------

  /** Stream_Peek_<T>[_BE] and Stream_Peek_Get_<T>[_BE]: the value whose
      encoding sits at the cursor; the cursor does not move. */
  function Peek(s: Stream, t: IntType, order: ByteOrder): (v: int)
    requires s.CanRead(t.Width())
    ensures t.InRange(v)
    ensures Encode(t, order, v) == s.data[s.position .. s.position + t.Width()]
  {
    var bs := s.data[s.position .. s.position + t.Width()];
    EncodeDecode(t, order, bs);
    Decode(t, order, bs)
  }

  /** Bytes at the cursor that encode `v` are read as `v`. */
  lemma PeekEncoded(s: Stream, t: IntType, order: ByteOrder, v: int)
    requires s.CanRead(t.Width()) && t.InRange(v)
    requires s.data[s.position .. s.position + t.Width()] == Encode(t, order, v)
    ensures Peek(s, t, order) == v
  {
    EncodeInjective(t, order, Peek(s, t, order), v);
  }

  /** Stream_Read_<T>[_BE] and Stream_Get_<T>[_BE]: the value at the cursor,
      and the stream with the cursor advanced by sizeof(T). */
  function Read(s: Stream, t: IntType, order: ByteOrder): (r: (int, Stream))
    requires s.CanRead(t.Width())
    ensures r.0 == Peek(s, t, order)
    ensures r.1.Valid() && r.1.position == s.position + t.Width() && r.1.SameBut(s, r.1.position)
  {
    (Peek(s, t, order), s.(position := s.position + t.Width()))
  }

  /** Stream_Write_<T>[_BE]: store the encoding of `v` at the cursor and
      advance it by sizeof(T); nothing outside those bytes changes and the
      sealed length stays where it was. */
  function Write(s: Stream, t: IntType, order: ByteOrder, v: int): (r: Stream)
    requires s.CanWrite(t.Width()) && t.InRange(v)
    ensures r.Valid() && r.position == s.position + t.Width()
    ensures r.capacity == s.capacity && r.length == s.length && r.isOwner == s.isOwner
    ensures forall i :: 0 <= i < t.Width() ==> r.data[s.position + i] == Encode(t, order, v)[i]
    ensures forall i :: 0 <= i < s.capacity && !(s.position <= i < r.position) ==> r.data[i] == s.data[i]
  {
    var bs := Encode(t, order, v);
    s.(data := Splice(s.data, s.position, bs), position := s.position + |bs|)
  }

  /** Peek agrees with Read, Read moves the cursor by exactly sizeof(T) and
      rewinding by sizeof(T) undoes it. */
  lemma PeekAndRead(s: Stream, t: IntType, order: ByteOrder)
    requires s.CanRead(t.Width())
    ensures Read(s, t, order).0 == Peek(s, t, order)
    ensures Read(s, t, order).1.position == s.position + t.Width()
    ensures Rewind(Read(s, t, order).1, t.Width()) == s
  {
  }

  /** A field of `data` at `p` that encodes `v` obeys the byte-order law. */
  lemma FieldByteLaw(data: seq<byte>, p: nat, t: IntType, order: ByteOrder, v: int, i: nat)
    requires t.InRange(v) && i < t.Width() && p + t.Width() <= |data|
    requires data[p .. p + t.Width()] == Encode(t, order, v)
    ensures order == LittleEndian ==> data[p + i] as int == (v / Pow256(i)) % 256
    ensures order == BigEndian ==> data[p + t.Width() - 1 - i] as int == (v / Pow256(i)) % 256
  {
    var w := t.Width();
    ByteLaw(t, v, i);
    assert data[p .. p + w][i] == data[p + i];
    assert data[p .. p + w][w - 1 - i] == data[p + w - 1 - i];
  }

  /** The bytes under the cursor obey the byte-order law for the value a
      peek returns: byte i of a little-endian field and byte w-1-i of a
      big-endian field hold (v >> 8i) & 0xFF. */
  lemma PeekByteLaw(s: Stream, t: IntType, order: ByteOrder, i: nat)
    requires s.CanRead(t.Width()) && i < t.Width()
    ensures order == LittleEndian ==>
      s.data[s.position + i] as int == (Peek(s, t, order) / Pow256(i)) % 256
    ensures order == BigEndian ==>
      s.data[s.position + t.Width() - 1 - i] as int == (Peek(s, t, order) / Pow256(i)) % 256
  {
    FieldByteLaw(s.data, s.position, t, order, Peek(s, t, order), i);
  }

  /** Write, rewind by sizeof(T), read: the value comes back bit for bit and
      the cursor ends where the write left it. */
  lemma WriteRewindRead(s: Stream, t: IntType, order: ByteOrder, v: int)
    requires s.CanWrite(t.Width()) && t.InRange(v)
    requires s.position + t.Width() <= s.length
    ensures RewindType(Write(s, t, order, v), t).CanRead(t.Width())
    ensures Read(RewindType(Write(s, t, order, v), t), t, order).0 == v
    ensures Read(RewindType(Write(s, t, order, v), t), t, order).1 == Write(s, t, order, v)
  {
    var r := RewindType(Write(s, t, order, v), t);
    var w := t.Width();
    assert r.data[r.position .. r.position + w] == Encode(t, order, v) by {
      forall i | 0 <= i < w
        ensures r.data[r.position .. r.position + w][i] == Encode(t, order, v)[i]
      {
        assert r.data[r.position .. r.position + w][i] == r.data[s.position + i];
      }
    }
    PeekEncoded(r, t, order, v);
  }

  /** A write lays out `v` by the byte-order law: byte i of a little-endian
      field and byte w-1-i of a big-endian field hold (v >> 8i) & 0xFF. */
  lemma WriteLayout(s: Stream, t: IntType, order: ByteOrder, v: int, i: nat)
    requires s.CanWrite(t.Width()) && t.InRange(v) && i < t.Width()
    ensures order == LittleEndian ==>
      Write(s, t, order, v).data[s.position + i] as int == (v / Pow256(i)) % 256
    ensures order == BigEndian ==>
      Write(s, t, order, v).data[s.position + t.Width() - 1 - i] as int == (v / Pow256(i)) % 256
  {
    FieldByteLaw(Write(s, t, order, v).data, s.position, t, order, v, i);
  }

  // -----------------------------------------------------------------------
  // Bulk operations
  // -----------------------------------------------------------------------

  /** Stream_Write: copy `bytes` to the cursor and advance past them. */
  function WriteBytes(s: Stream, bytes: seq<byte>): (r: Stream)
    requires s.CanWrite(|bytes|)
    ensures r.Valid() && r.position == s.position + |bytes|
    ensures r.capacity == s.capacity && r.length == s.length && r.isOwner == s.isOwner
    ensures forall i :: 0 <= i < |bytes| ==> r.data[s.position + i] == bytes[i]
    ensures forall i :: 0 <= i < s.capacity && !(s.position <= i < r.position) ==> r.data[i] == s.data[i]
  {
    s.(data := Splice(s.data, s.position, bytes), position := s.position + |bytes|)
  }

  /** Stream_Read: the `n` bytes at the cursor, and the cursor advanced past them. */
  function ReadBytes(s: Stream, n: nat): (r: (seq<byte>, Stream))
    requires s.CanRead(n)
    ensures |r.0| == n
    ensures forall i :: 0 <= i < n ==> r.0[i] == s.data[s.position + i]
    ensures r.1.Valid() && r.1.position == s.position + n && r.1.SameBut(s, r.1.position)
  {
    (s.data[s.position .. s.position + n], s.(position := s.position + n))
  }

  /** Bytes written and read back at the same place are the bytes written. */
  lemma WriteBytesThenReadBytes(s: Stream, bytes: seq<byte>)
    requires s.CanWrite(|bytes|) && s.position + |bytes| <= s.length
    ensures Rewind(WriteBytes(s, bytes), |bytes|).CanRead(|bytes|)
    ensures ReadBytes(Rewind(WriteBytes(s, bytes), |bytes|), |bytes|).0 == bytes
    ensures ReadBytes(Rewind(WriteBytes(s, bytes), |bytes|), |bytes|).1 == WriteBytes(s, bytes)
  {
  }

  /** Stream_Fill: `n` copies of `b` at the cursor, which advances past them. */
  function Fill(s: Stream, b: byte, n: nat): (r: Stream)
    requires s.CanWrite(n)
    ensures r.Valid() && r.position == s.position + n
    ensures r.capacity == s.capacity && r.length == s.length && r.isOwner == s.isOwner
    ensures forall i :: s.position <= i < r.position ==> r.data[i] == b
    ensures forall i :: 0 <= i < s.capacity && !(s.position <= i < r.position) ==> r.data[i] == s.data[i]
  {
    s.(data := Splice(s.data, s.position, seq(n, _ => b)), position := s.position + n)
  }

  /** Stream_Zero: `n` zero bytes at the cursor, which advances past them. */
  function Zero(s: Stream, n: nat): (r: Stream)
    requires s.CanWrite(n)
    ensures r.Valid() && r.position == s.position + n
    ensures r.capacity == s.capacity && r.length == s.length && r.isOwner == s.isOwner
    ensures forall i :: s.position <= i < r.position ==> r.data[i] == 0
    ensures forall i :: 0 <= i < s.capacity && !(s.position <= i < r.position) ==> r.data[i] == s.data[i]
  {
    s.(data := Splice(s.data, s.position, Zeros(n)), position := s.position + n)
  }

  /** Filling and zeroing are writes of a constant run of bytes. */
  lemma FillIsWriteBytes(s: Stream, b: byte, n: nat)
    requires s.CanWrite(n)
    ensures Fill(s, b, n) == WriteBytes(s, seq(n, _ => b))
    ensures Zero(s, n) == Fill(s, 0, n)
  {
    assert Zeros(n) == seq(n, _ => 0 as byte);
  }

  /** Stream_Copy: move `n` bytes from the source cursor to the destination
      cursor and advance both; the source's bytes and every length are kept. */
  function Copy(src: Stream, dst: Stream, n: nat): (r: (Stream, Stream))
    requires src.CanWrite(n) && dst.CanWrite(n)
    ensures r.0.Valid() && r.0.position == src.position + n && r.0.SameBut(src, r.0.position)
    ensures r.1.Valid() && r.1.position == dst.position + n
    ensures r.1.capacity == dst.capacity && r.1.length == dst.length && r.1.isOwner == dst.isOwner
    ensures forall i :: dst.position <= i < r.1.position ==> r.1.data[i] == src.data[src.position + (i - dst.position)]
    ensures forall i :: 0 <= i < dst.capacity && !(dst.position <= i < r.1.position) ==> r.1.data[i] == dst.data[i]
  {
    var bytes := src.data[src.position .. src.position + n];
    (src.(position := src.position + n),
     dst.(data := Splice(dst.data, dst.position, bytes), position := dst.position + n))
  }

  /** Copying is skipping the source bytes and writing them to the destination. */
  lemma CopyIsSeekAndWrite(src: Stream, dst: Stream, n: nat)
    requires src.CanWrite(n) && dst.CanWrite(n)
    ensures Copy(src, dst, n).0 == Seek(src, n)
    ensures Copy(src, dst, n).1 == WriteBytes(dst, src.data[src.position .. src.position + n])
  {
  }
}

=== FILE: stream_tests.dfy ===
/** The stream contract as the WinPR test suite exercises it: the state
    check every test applies, and each test's call sequence replayed on the
    model, returning what the test observes.
 */
module StreamTests {
  import opened Endian
  import opened IntTypes
  import opened Streams

  /** The bytes of the C string "someteststreamdata" with its terminating
      NUL (sizeof(data) == 19). */
  const TestData: seq<byte> :=
    [115, 111, 109, 101, 116, 101, 115, 116, 115, 116, 114, 101, 97, 109, 100, 97, 116, 97, 0]

  /** The character 'X'. */
  const FillByte: byte := 88

  /** TestStream_Verify: capacity at least `mincap`, the expected length and
      position, position within length and capacity, length within
      capacity, and `len - pos` bytes left to read.  The non-null and
      pointer-order checks hold of every modelled stream. */
  predicate Verify(s: Stream, mincap: nat, len: nat, pos: nat)
  {
    && s.Valid()
    && s.capacity >= mincap
    && s.length == len
    && s.position == pos
    && s.position <= s.length
    && s.position <= s.capacity
    && s.length <= s.capacity
    && GetRemainingLength(s) == len - pos
  }

  /** TestStream_Create for one size: a stream of `size` bytes, over the
      caller's buffer or self-allocated, starts full with the cursor at 0;
      then setting and sealing each position below `size` in turn verifies
      with that position as length.  The stream's bytes equal the caller's
      buffer. */
  method Create(buffer: Option<seq<byte>>, size: nat) returns (s: Stream)
    requires size >= 1
    requires buffer.Some? ==> |buffer.value| == size
    ensures Verify(New(buffer, size).value, size, size, 0)
    ensures forall p :: 0 <= p < size ==>
      Verify(SealLength(SetPosition(New(buffer, size).value, p)), size, p, p)
    ensures Verify(s, size, size - 1, size - 1)
    ensures buffer.Some? ==> s.data == buffer.value
    ensures s.isOwner <==> buffer.None?
  {
    var created := New(buffer, size);
    s := created.value;
    assert Verify(s, size, size, 0);
    var pos := 0;
    while pos < size
      invariant pos <= size
      invariant s.Valid() && s.capacity == size
      invariant pos == 0 ==> s.length == size
      invariant pos > 0 ==> Verify(s, size, pos - 1, pos - 1)
      invariant buffer.Some? ==> s.data == buffer.value
      invariant s.isOwner <==> buffer.None?
    {
      s := SetPosition(s, pos);
      s := SealLength(s);
      assert Verify(s, size, pos, pos);
      pos := pos + 1;
    }
  }

  /** TestStream_Extent: starting from a one-byte stream, for each i below
      `maxSize` ensure room for i bytes (remaining capacity on odd i, total
      capacity on even i), then set and seal the position to i; every round
      verifies with capacity, length and position i. */
  method Extent(maxSize: nat) returns (s: Stream)
    ensures s.Valid()
    ensures maxSize >= 2 ==> Verify(s, maxSize - 1, maxSize - 1, maxSize - 1)
  {
    var created := New(None, 1);
    s := created.value;
    var i := 1;
    while i < maxSize
      invariant 1 <= i
      invariant maxSize >= 1 ==> i <= maxSize
      invariant s.Valid()
      invariant i >= 2 ==> Verify(s, i - 1, i - 1, i - 1)
    {
      if i % 2 == 1 {
        s := EnsureRemainingCapacity(s, i);
      } else {
        s := EnsureCapacity(s, i);
      }
      s := SetPosition(s, i);
      s := SealLength(s);
      assert Verify(s, i, i, i);
      i := i + 1;
    }
  }

  /** TestStream_Static: a static stream over a 20-byte buffer reads back
      what it wrote; asking for 10 more bytes fits, asking for 30 moves the
      contents to owned storage; values written before and after the move
      read back in place. */
  method Static() returns (first: int, ownerAfter10: bool, ownerAfter30: bool, second: int, third: int)
    ensures first == 0xcab1
    ensures !ownerAfter10 && ownerAfter30
    ensures second == 1 && third == 2
  {
    var s := StaticInit(Zeros(20), 20);
    s := Write(s, UInt16, LittleEndian, 0xcab1);
    s := SetPosition(s, 0);
    PeekEncoded(s, UInt16, LittleEndian, 0xcab1);
    var r := Read(s, UInt16, LittleEndian);
    first := r.0;
    s := SetPosition(r.1, 0);
    s := Write(s, UInt16, LittleEndian, 1);
    var one := s.data[0 .. 2];
    s := EnsureRemainingCapacity(s, 10);
    ownerAfter10 := s.isOwner;
    s := EnsureRemainingCapacity(s, 30);
    ownerAfter30 := s.isOwner;
    assert s.data[0 .. 2] == one by {
      assert s.data[..20][0 .. 2] == s.data[0 .. 2];
    }
    var before := s;
    s := Write(s, UInt16, LittleEndian, 2);
    assert s.data[0 .. 2] == one by {
      assert s.data[0] == before.data[0] && s.data[1] == before.data[1];
    }
    s := SetPosition(s, 0);
    PeekEncoded(s, UInt16, LittleEndian, 1);
    r := Read(s, UInt16, LittleEndian);
    second := r.0;
    s := r.1;
    PeekEncoded(s, UInt16, LittleEndian, 2);
    r := Read(s, UInt16, LittleEndian);
    third := r.0;
  }

  /** The value/byte-order pairs TestStream_WriteAndRead goes through, in order. */
  const WriteAndReadSteps: seq<(IntType, ByteOrder)> := [
    (UInt8, LittleEndian), (UInt16, LittleEndian), (UInt16, BigEndian),
    (UInt32, LittleEndian), (UInt32, BigEndian), (UInt64, LittleEndian), (UInt64, BigEndian),
    (Int8, LittleEndian), (Int16, LittleEndian), (Int16, BigEndian),
    (Int32, LittleEndian), (Int32, BigEndian), (Int64, LittleEndian), (Int64, BigEndian)]

  /** TestStream_WriteAndRead: for each step, write the union member of the
      step's type, rewind by its width, get it back and rewind again; every
      value read equals the value written. */
  method WriteAndRead(value: nat) returns (got: seq<int>)
    requires value < Pow256(8)
    ensures |got| == |WriteAndReadSteps|
    ensures forall k :: 0 <= k < |got| ==> got[k] == Reinterpret(WriteAndReadSteps[k].0, value)
  {
    var created := New(None, 1024);
    var s := created.value;
    got := [];
    for k := 0 to |WriteAndReadSteps|
      invariant s.Valid() && s.position == 0 && s.length == 1024 && s.capacity == 1024
      invariant |got| == k
      invariant forall j :: 0 <= j < k ==> got[j] == Reinterpret(WriteAndReadSteps[j].0, value)
    {
      var (t, order) := WriteAndReadSteps[k];
      var r;
      s, r := WriteRewindGetRewind(s, t, order, Reinterpret(t, value));
      got := got + [r];
    }
  }

  /** One block of TestStream_WriteAndRead: write `v` at 0, rewind, get it
      back and rewind again. */
  method WriteRewindGetRewind(s: Stream, t: IntType, order: ByteOrder, v: int) returns (r: Stream, got: int)
    requires s.Valid() && s.position == 0 && s.length == s.capacity == 1024 && t.InRange(v)
    ensures r.Valid() && r.position == 0 && r.length == r.capacity == 1024
    ensures got == v
  {
    WriteRewindRead(s, t, order, v);
    r := Write(s, t, order, v);
    r := RewindType(r, t);
    var read := Read(r, t, order);
    got := read.0;
    r := RewindType(read.1, t);
  }

  /** The TestStream_PeekAndRead macro for one type `t`: from position 0,
      peek then read in little-endian order, rewind, peek-get then get,
      check each byte of the buffer against (a >> 8i) & 0xFF; then the same
      in big-endian order with byte w-1-i.  `ok` is the macro's verdict. */
  method PeekAndReadCheck(s: Stream, t: IntType) returns (ok: bool, r: Stream)
    requires s.Valid() && t.Width() <= s.length
    ensures ok
    ensures r.Valid() && r.position == t.Width() && r.SameBut(s, r.position)
  {
    ok := true;
    var w := t.Width();
    var orders := [LittleEndian, BigEndian];
    r := s;
    for k := 0 to 2
      invariant ok
      invariant r.Valid() && r.SameBut(s, r.position)
      invariant k > 0 ==> r.position == w
    {
      var order := orders[k];
      r := SetPosition(r, 0);
      var start := r;
      var a := Peek(r, t, order);
      var read := Read(r, t, order);
      var b := read.0;
      r := read.1;
      if a != b {
        ok := false;
      }
      r := Rewind(r, w);
      var d := Peek(r, t, order);
      var get := Read(r, t, order);
      var c := get.0;
      r := get.1;
      if c != d {
        ok := false;
      }
      var bytesOk := CheckBytes(start, t, order, a);
      ok := ok && bytesOk;
    }
  }

  /** The macro's byte loop: byte i (little-endian) or byte w-1-i
      (big-endian) of the buffer must hold (a >> 8i) & 0xFF, where `a` was
      peeked at position 0. */
  method CheckBytes(s: Stream, t: IntType, order: ByteOrder, a: int) returns (ok: bool)
    requires s.CanRead(t.Width()) && s.position == 0 && a == Peek(s, t, order)
    ensures ok
  {
    ok := true;
    var w := t.Width();
    for i := 0 to w
      invariant ok
    {
      var at := if order == LittleEndian then i else w - i - 1;
      PeekByteLaw(s, t, order, i);
      if (a / Pow256(i)) % 256 != s.data[at] as int {
        ok := false;
        break;
      }
    }
  }

  /** TestStream_Reading: a stream over the caller's bytes 01 ... 08 passes
      the peek-and-read check for every type, UINT8 through INT64. */
  method Reading() returns (result: bool)
    ensures result
  {
    var src: seq<byte> := [1, 2, 3, 4, 5, 6, 7, 8];
    var created := New(Some(src), 8);
    var s := created.value;
    result := true;
    var types := [UInt8, Int8, UInt16, Int16, UInt32, Int32, UInt64, Int64];
    for k := 0 to |types|
      invariant result
      invariant s.Valid() && s.length == 8
    {
      var ok;
      ok, s := PeekAndReadCheck(s, types[k]);
      result := result && ok;
    }
  }

  /** The verdict of TestStream_Write as its control flow computes it.
      `started` is the pointer check before the string is written,
      `stringMatches` is the memcmp of the written string, which sets the
      verdict, and `checks` are the position and value checks after it, in
      order.  A failing check jumps to the exit and returns the verdict set
      so far. */
  function WriteVerdictAsWritten(started: bool, stringMatches: bool, checks: seq<bool>): bool
  {
    if !started then false else RunToExit(stringMatches, checks)
  }

  /** Walk `checks` in order with the verdict `rc` fixed: a failing check
      exits with `rc`, and so does passing them all. */
  function RunToExit(rc: bool, checks: seq<bool>): bool
  {
    if |checks| == 0 then rc
    else if !checks[0] then rc
    else RunToExit(rc, checks[1..])
  }

  /** As written, the checks after the memcmp never change the verdict. */
  lemma {:induction false} RunToExitIgnoresChecks(rc: bool, checks: seq<bool>)
    ensures RunToExit(rc, checks) == rc
  {
    if |checks| > 0 && checks[0] {
      RunToExitIgnoresChecks(rc, checks[1..]);
    }
  }

  /** With the checks in the order TestStream_Write makes them (the cursor
      after the string, the cursor after rewinding, the cursor after the
      first typed write, ...), a stream whose cursor ends in the wrong place
      after the first typed write still passes the test as written. */
  lemma WriteVerdictAsWrittenMissesFailure(checks: seq<bool>)
    requires |checks| > 2 && checks[0] && checks[1] && !checks[2]
    ensures WriteVerdictAsWritten(true, true, checks)
    ensures !WriteVerdict(true, true, checks)
  {
    RunToExitIgnoresChecks(true, checks);
  }

  /** Whether every check in `checks` passes, walked in order. */
  function AllPass(checks: seq<bool>): (ok: bool)
    ensures ok <==> forall i :: 0 <= i < |checks| ==> checks[i]
  {
    if |checks| == 0 then true
    else checks[0] && AllPass(checks[1..])
  }

  /** The verdict TestStream_Write evidently intends: success only when the
      start, the string and every later check pass, as in the other tests,
      which set the verdict after their last check. */
  function WriteVerdict(started: bool, stringMatches: bool, checks: seq<bool>): (rc: bool)
    ensures rc <==> started && stringMatches && forall i :: 0 <= i < |checks| ==> checks[i]
  {
    started && stringMatches && AllPass(checks)
  }

  /** TestStream_Write: a 100-byte stream takes the 19 bytes of the test
      string and advances by 19; each typed write from position 0 advances
      by its width and is peeked back unchanged. */
  method WriteScenario() returns (started: bool, prefix: seq<byte>, positions: seq<nat>, rewound: seq<nat>, peeked: seq<int>)
    ensures started
    ensures prefix == TestData
    ensures positions == [19, 1, 2, 4, 8]
    ensures rewound == [0, 0, 0, 0, 0]
    ensures peeked == [42, 0x1234, 0x12345678, 0x1234567890ABCDEF]
  {
    var s, p0, z0;
    started, s, prefix, p0, z0 := WriteString();
    positions, rewound := [p0], [z0];
    var p, z, v;
    s, p, z, v := WriteFromStart(s, UInt8, 42);
    positions, rewound, peeked := positions + [p], rewound + [z], [v];
    s, p, z, v := WriteFromStart(s, UInt16, 0x1234);
    positions, rewound, peeked := positions + [p], rewound + [z], peeked + [v];
    s, p, z, v := WriteFromStart(s, UInt32, 0x12345678);
    positions, rewound, peeked := positions + [p], rewound + [z], peeked + [v];
    s, p, z, v := WriteFromStart(s, UInt64, 0x1234567890ABCDEF);
    positions, rewound, peeked := positions + [p], rewound + [z], peeked + [v];
  }

  /** The start of TestStream_Write: a fresh 100-byte stream takes the 19
      bytes of the test string at position 0, then goes back to 0. */
  method WriteString() returns (started: bool, s: Stream, prefix: seq<byte>, after: nat, rewound: nat)
    ensures started && prefix == TestData && after == 19 && rewound == 0
    ensures s.Valid() && s.position == 0 && s.capacity == s.length == 100
  {
    var created := New(None, 100);
    s := created.value;
    started := s.position == 0;
    s := WriteBytes(s, TestData);
    prefix := s.data[..19];
    after := s.position;
    s := SetPosition(s, 0);
    rewound := s.position;
  }

  /** TestStream_Write with its intended verdict: every check of the
      scenario passes, taken in the order the test makes them. */
  method WriteTest() returns (verdict: bool)
    ensures verdict
  {
    var started, prefix, positions, rewound, peeked := WriteScenario();
    verdict := WriteVerdict(started, prefix == TestData,
      [positions[0] == 19, rewound[0] == 0,
       positions[1] == 1, rewound[1] == 0, peeked[0] == 42,
       positions[2] == 2, rewound[2] == 0, peeked[1] == 0x1234,
       positions[3] == 4, rewound[3] == 0, peeked[2] == 0x12345678,
       positions[4] == 8, rewound[4] == 0, peeked[3] == 0x1234567890ABCDEF]);
  }

  /** One step of TestStream_Write: write `v` little-endian at offset 0,
      note the cursor, go back to 0, note the cursor again and peek the
      value. */
  method WriteFromStart(s: Stream, t: IntType, v: int) returns (r: Stream, after: nat, rewound: nat, peeked: int)
    requires s.Valid() && s.position == 0 && s.capacity == s.length == 100 && t.InRange(v)
    ensures r.Valid() && r.position == 0 && r.capacity == r.length == 100
    ensures after == t.Width() && rewound == 0 && peeked == v
  {
    r := Write(s, t, LittleEndian, v);
    after := r.position;
    r := SetPosition(r, 0);
    rewound := r.position;
    PeekEncoded(r, t, LittleEndian, v);
    peeked := Peek(r, t, LittleEndian);
  }

  /** TestStream_New: a stream with neither a buffer nor a size is not
      created. */
  method NewScenario() returns (created: bool)
    ensures !created
  {
    var s := New(None, 0);
    created := s.Some?;
  }

  /** TestStream_Seek: a fresh 100-byte stream starts at 0, then Seek(5)
      and one seek per width. */
  method SeekScenario() returns (positions: seq<nat>)
    ensures positions == [0, 5, 6, 8, 12, 20]
  {
    var created := New(None, 100);
    var s := created.value;
    positions := [s.position];
    s := Seek(s, 5);
    positions := positions + [s.position];
    s := SeekType(s, UInt8);
    positions := positions + [s.position];
    s := SeekType(s, UInt16);
    positions := positions + [s.position];
    s := SeekType(s, UInt32);
    positions := positions + [s.position];
    s := SeekType(s, UInt64);
    positions := positions + [s.position];
  }

  /** TestStream_Rewind: a fresh 100-byte stream starts at 0, Seek(100)
      takes it to the end, then Rewind(10) and one rewind per width. */
  method RewindScenario() returns (positions: seq<nat>)
    ensures positions == [0, 100, 90, 89, 87, 83, 75]
  {
    var created := New(None, 100);
    var s := created.value;
    positions := [s.position];
    s := Seek(s, 100);
    positions := positions + [s.position];
    s := Rewind(s, 10);
    positions := positions + [s.position];
    s := RewindType(s, UInt8);
    positions := positions + [s.position];
    s := RewindType(s, UInt16);
    positions := positions + [s.position];
    s := RewindType(s, UInt32);
    positions := positions + [s.position];
    s := RewindType(s, UInt64);
    positions := positions + [s.position];
  }

  /** The common start of TestStream_Zero, TestStream_Fill and
      TestStream_Copy: a fresh stream of exactly 19 bytes starts at 0,
      takes the test string, which then fills the region, and goes back
      to 0. */
  method StringStream() returns (s: Stream, start: nat, written: seq<byte>, after: nat, rewound: nat)
    ensures start == 0 && written == TestData && after == 19 && rewound == 0
    ensures s.Valid() && s.position == 0 && s.capacity == s.length == 19
    ensures s.data == TestData
  {
    var created := New(None, 19);
    s := created.value;
    start := s.position;
    s := WriteBytes(s, TestData);
    written := s.data[..19];
    after := s.position;
    s := SetPosition(s, 0);
    rewound := s.position;
  }

  /** TestStream_Zero: the test string is in place and the cursor is back
      at 0; zeroing 5 bytes advances by 5 and keeps the rest of the
      string; back at 0, the 5 bytes read one UINT8 at a time are 0. */
  method ZeroScenario() returns (written: seq<byte>, rewound: seq<nat>, afterZero: nat, rest: seq<byte>, values: seq<int>)
    ensures written == TestData
    ensures rewound == [0, 0]
    ensures afterZero == 5
    ensures rest == TestData[5..]
    ensures values == [0, 0, 0, 0, 0]
  {
    var s, _, w, _, z := StringStream();
    written := w;
    rewound := [z];
    s := Zero(s, 5);
    afterZero := s.position;
    rest := s.data[s.position .. 19];
    s := SetPosition(s, 0);
    rewound := rewound + [s.position];
    values := ReadZeros(s);
  }

  /** The loop of TestStream_Zero: five UINT8 reads over five zero bytes
      at the start of the stream yield 0 each time. */
  method ReadZeros(s: Stream) returns (values: seq<int>)
    requires s.CanRead(5) && s.position == 0
    requires forall i :: 0 <= i < 5 ==> s.data[i] == 0
    ensures values == [0, 0, 0, 0, 0]
  {
    var c := s;
    values := [];
    for x := 0 to 5
      invariant c == s.(position := x)
      invariant values == seq(x, _ => 0)
    {
      assert c.data[x .. x + 1] == Encode(UInt8, LittleEndian, 0);
      PeekEncoded(c, UInt8, LittleEndian, 0);
      var r := Read(c, UInt8, LittleEndian);
      values := values + [r.0];
      c := r.1;
    }
  }

  /** TestStream_Fill: the test string is in place and the cursor is back
      at 0; filling 7 bytes with 'X' advances by 7 and keeps the rest of
      the string; back at 0, the first 7 bytes are 'X'. */
  method FillScenario() returns (written: seq<byte>, rewound: seq<nat>, afterFill: nat, rest: seq<byte>, head: seq<byte>)
    ensures written == TestData
    ensures rewound == [0, 0]
    ensures afterFill == 7
    ensures rest == TestData[7..]
    ensures head == seq(7, _ => FillByte)
  {
    var s, _, w, _, z := StringStream();
    written := w;
    rewound := [z];
    s := Fill(s, FillByte, 7);
    afterFill := s.position;
    rest := s.data[s.position .. 19];
    s := SetPosition(s, 0);
    rewound := rewound + [s.position];
    head := s.data[s.position .. s.position + 7];
  }

  /** TestStream_Copy: the source starts at 0, takes the test string and
      moves to 19, then goes back to 0; copying 19 bytes to a fresh stream
      advances both cursors to 19 and leaves the string at the start of
      both. */
  method CopyScenario() returns (start: nat, written: seq<byte>, after: nat, rewound: nat,
                                 srcPos: nat, dstPos: nat, srcBytes: seq<byte>, dstBytes: seq<byte>)
    ensures start == 0 && written == TestData && after == 19 && rewound == 0
    ensures srcPos == 19 && dstPos == 19
    ensures srcBytes == TestData && dstBytes == TestData
  {
    var src;
    src, start, written, after, rewound := StringStream();
    var createdDst := New(None, 19);
    srcPos, dstPos, srcBytes, dstBytes := CopyString(src, createdDst.value);
  }

  /** The copy in TestStream_Copy: 19 bytes from a source holding the test
      string at 0 into a fresh 19-byte stream. */
  method CopyString(src: Stream, dst: Stream) returns (srcPos: nat, dstPos: nat, srcBytes: seq<byte>, dstBytes: seq<byte>)
    requires src.Valid() && src.position == 0 && src.capacity == 19 && src.data == TestData
    requires dst.Valid() && dst.position == 0 && dst.capacity == 19
    ensures srcPos == 19 && dstPos == 19
    ensures srcBytes == TestData && dstBytes == TestData
  {
    var r := Copy(src, dst, 19);
    srcPos, dstPos := r.0.position, r.1.position;
    srcBytes := r.0.data[..19];
    dstBytes := r.1.data[..19];
    assert forall i :: 0 <= i < 19 ==> dstBytes[i] == r.1.data[i] == TestData[i];
  }
}
